=== FILE: README.md ===
# monolog-manager: channel factory and channel manager

A Dafny model of the two components of harborphp/monolog-manager that carry
its logic:

- the **factory** (`Factory`), which turns a channel configuration into the
  configuration handed to the backend logger factory. With a container
  attached, it resolves each handler, processor and formatter reference:
  a container key is looked up, and a callable or invokable class is invoked
  with the container. Without a container the configuration passes through
  unchanged;
- the **manager** (`Manager`), which registers channel configurations and
  builds each channel's logger lazily through the factory, caching it. It
  tracks the default channel and, unless disabled, answers a failed lookup
  with the emergency channel's logger.

Files:

- `values.dfy` (module `Values`): configuration entries, channel
  configurations, built loggers, exceptions and their messages.
- `factory.dfy` (module `Factory`): the resolution rules and `create`.
- `manager.dfy` (module `Manager`): the manager as a state value. Every
  operation returns the next state. The state records three things, each
  in order:
  - every name handed to the factory, whether or not the build succeeded
    (`attempts`);
  - the names whose build succeeded and was cached (`builds`);
  - the calls made on built loggers (`trace`).
- `runs.dfy` (module `Runs`): properties of every sequence of manager
  operations.
- `scenarios.dfy` (module `Scenarios`): the repository's tests, restated as
  lemmas on the tests' own inputs.

Modelling choices:

- PHP decides at run time what a configuration entry is. It uses
  `instanceof`, `is_string`, `is_callable`, and `class_exists` with
  `method_exists('__invoke')`. In the model that decision is fixed when the
  value is built, as a constructor of `Value`:
  - `Object` is an object, with the backend interfaces it implements and,
    when it is callable, its callee;
  - `Key` is a string that is not callable;
  - `InvokableName` is a string naming a PHP function or a class with
    `__invoke`;
  - `Struct` is an array `{name, params?, formatter?}`.
- The container is a `map<string, Value>`: `has` is membership and `get`
  is lookup.
- Two pieces of foreign code are parameters of the factory state:
  - the code a callable runs (`Invoker`);
  - whether the backend logger factory builds a logger from a configuration
    (`Backend`).
  A built logger is the value `Logger(name, config)`, where `config` is the
  configuration the backend received.
- PHP exceptions are the `Exception` datatype. A call that may throw
  returns `Result`. A manager operation returns a `Step`: the result together
  with the state after the call. The state matters even when the call
  throws, because a failed emergency build leaves the emergency channel
  registered.
- The eight level methods (`emergency` … `debug`) and `log` are all
  `Manager.Log`, with the level as an argument.

The model follows the code where a test or a looser reading of the code
would suggest otherwise:

- A formatter given as a nested map `{name: …}` is not unpacked.
  `resolveFormatter` passes the array to `resolveFromContainer`. There,
  `class_exists` receives an array under strict types and throws a
  `TypeError`: this is `NotAReference` here. The test at
  tests/FactoryTest.php:83-88 expects such a formatter to resolve. The
  model proves that it does not (`Factory.NestedFormatterMapIsNotResolved`,
  `Scenarios.CreateWithNestedFormatterMapFails`).
- A value that is neither a string nor callable does not fail with
  `Could not resolve "…"` (src/Factory.php:94). It fails earlier, in
  `class_exists` at src/Factory.php:106, because the file declares strict
  types (`NotAReference`).
- `resolveFormatter` declares the return type `FormatterInterface`
  (src/Factory.php:150). A container entry or factory result that is not a
  formatter therefore throws a `TypeError` (`NotAFormatter`).
- An absent `processors` key is not replaced by an empty list. The guard
  `is_array` at src/Factory.php:61 fails on the missing key, so the factory
  leaves it absent, and the model does the same.
- A failed build is not cached. `??=` at src/Manager.php:92 stores nothing
  when `create` throws, so every later lookup of that channel calls the
  factory again (`Manager.FailedBuildIsRetried`).

## Model

| member | source | states |
|---|---|---|
| Values.MessageIdentifiesException | src/Factory.php:94 | The messages of the core's InvalidArgumentExceptions determine the exception. This covers `Could not resolve` here and, in src/Manager.php, `No default channel has been set` (line 66) and `Channel "n" is not defined` (line 89). Equal messages mean the same kind and the same reference or channel name. |
| Factory.New | src/Factory.php:30-34 | A new factory has a container exactly when it is given one. |
| Factory.UseContainer | src/Factory.php:36-44 | After `useContainer`, `hasContainer` (lines 41-44) holds exactly when the argument was non-null. Nothing else changes. |
| Factory.GetCallable | src/Factory.php:100-111 | A value is callable exactly when it is an invokable name or an object with a callee; the callee found is its own. A plain key (a string naming no function and no class with `__invoke`) and an array are never callable. |
| Factory.ResolveFromContainer | src/Factory.php:83-111 | A string the container has resolves to the container's entry, even when the string names an invokable class. Otherwise a callable resolves to the result of invoking it with the container. Resolution fails exactly when neither applies. It fails with `CouldNotResolve(s)` exactly for a non-callable string `s` the container lacks, and with a type error for any other value. |
| Factory.ResolveFormatter | src/Factory.php:150-157 | A formatter instance is kept. Anything else resolves through the container. A failure of the container resolution is thrown unchanged. A success is always a formatter instance, and a resolved value that is not a formatter fails with the return-type error, and only then. |
| Factory.ResolveHandler | src/Factory.php:118-131 | A handler instance is kept. A structured entry keeps its name and params, and only its formatter is resolved; an entry without a formatter is returned unchanged. Anything else resolves through the container. |
| Factory.ResolveProcessor | src/Factory.php:138-145 | A processor instance is kept. Anything else resolves through the container. |
| Factory.ResolveList | src/Factory.php:68-76 | A list resolves exactly when every entry does. The result then has the same length, and entry i is the resolution of input entry i. On failure, the exception is that of the first failing entry. |
| Factory.PrepareConfig | src/Factory.php:55-66 | Handlers and then processors are resolved when present and left absent otherwise. `default` and every other key are untouched. A handler failure wins over a processor failure. |
| Factory.Create | src/Factory.php:46-53 | Without a container, the backend receives the configuration unchanged. With one, it receives the prepared configuration, and a resolution failure is thrown with no logger built. A built logger carries the requested name. |
| Factory.ContainerKeyTakesPrecedence | src/Factory.php:85-87 | A string handler or processor reference the container has resolves to the container's entry. |
| Factory.UnresolvableHandlerAbortsCreate | src/Factory.php:94 | A non-callable handler key missing from the container, after entries that all resolve, makes `create` throw `Could not resolve` for that key. |
| Factory.NestedFormatterMapIsNotResolved | src/Factory.php:150-157 | A handler whose formatter is itself a map fails to resolve with a type error. |
| Manager.New | src/Manager.php:26-30 | A new manager has no channel, no default channel and the fallback enabled, and satisfies the invariant. |
| Manager.WithDefaultFlag | src/Manager.php:34 | The stored `default` flag is true exactly when the given one is true. It is false when the flag is absent or null. Handlers, processors and the other keys are kept. |
| Manager.Has | src/Manager.php:56-59 | `has` holds for a cached or a registered channel. In a valid state, where every cached channel is registered, registration alone decides. |
| Manager.Add | src/Manager.php:32-42 | After `add`, `has(name)` holds and the stored configuration is the given one with `default` filled in. Re-adding overwrites, and other channels are untouched. The default channel becomes `name` exactly when `default` is true and is otherwise unchanged. No logger is built. |
| Manager.SetDefaultChannel | src/Manager.php:44-54 | `getDefaultChannel` (lines 51-54) answers the name just set, and nothing else changes. It answers null on a new manager (`Manager.New`); which names it can hold over a run is `Runs.DefaultOnlyChosen`. |
| Manager.UseEmergencyChannel | src/Manager.php:79-84 | Only the fallback switch changes. |
| Manager.Get | src/Manager.php:86-95 | An unregistered name throws `Channel "n" is not defined`. A cached logger is returned without calling the factory. Otherwise the factory is called once with the channel's stored configuration, and its outcome is the answer: the built logger, or the factory's own exception. The call is recorded in `attempts`, and a built logger is cached and recorded in `builds`. A failed build caches nothing and changes nothing else. The invariant is kept. |
| Manager.AddEmergencyLogger | src/Manager.php:110-123 | Registers the fixed emergency configuration under the name with `default` false, so the default channel does not change. Every other configuration, the cache, the recorded calls, the factory and the fallback switch are unchanged. |
| Manager.WithEmergencyChannel | src/Manager.php:99-102 | The emergency channel is registered and made the default only when it is not registered yet. Otherwise the state is unchanged. |
| Manager.EmergencyLogger | src/Manager.php:97-108 | Answers with the emergency channel's logger and appends exactly one emergency-level entry with the reason and the exception. Apart from that entry, the state is the one `get` of the emergency channel leaves, so the logger is cached and the factory call recorded. When the emergency logger cannot be built, that failure is thrown. |
| Manager.Channel | src/Manager.php:61-77 | A successful lookup is answered unchanged. With the fallback disabled, a failed lookup is thrown. With it enabled, the emergency logger answers, in the state the failed lookup left (including its factory call). The answered logger is named after the looked-up channel, or after the emergency channel on fallback. |
| Manager.Log | src/Manager.php:133-200 | Each level method and `log` forward the same level, message and context to the logger `channel()` answers with: exactly one entry is appended after `channel()`'s own. A failure of `channel()` is thrown with `channel()`'s state. |
| Manager.CachedLoggerSurvivesOverwrite | src/Manager.php:92 | Re-adding a built channel with another configuration does not rebuild it. `get` still answers the cached logger. |
| Manager.FailedBuildIsRetried | src/Manager.php:92 | When a channel's build fails, a second `get` calls the factory again. In the model the container, the invoked code and the backend are fixed, so it fails the same way. Both calls are recorded in `attempts`, and nothing is cached or recorded in `builds`. |
| Manager.ChannelWithoutNameUsesDefault | src/Manager.php:64 | `channel(null)` is `channel(default)`. |
| Manager.ChannelWithoutFallbackThrows | src/Manager.php:63-73 | With the fallback disabled, no name and no default throws `No default channel has been set`. An unregistered name throws `Channel "n" is not defined`. In both cases the state is unchanged. |
| Manager.FallbackAnswersWithEmergencyLogger | src/Manager.php:70-75 | On a failed lookup with the fallback enabled, the answer is the logger named `monolog-manager-emergency`. Exactly one emergency entry carrying the exception is logged. The emergency channel is registered and made the default only if it was absent; otherwise configurations and default are unchanged. A failure to build it is thrown. |
| Manager.EmergencyConfigNeedsNoResolution | src/Manager.php:110-123 | With or without a container, the backend receives the emergency configuration as stored. |
| Manager.FallbackNeverThrows | src/Manager.php:70-75 | With the fallback enabled, `channel` never throws once the emergency logger is cached. It also never throws when the emergency channel is unregistered and the backend builds its configuration. |
| Manager.LaterFallbackReusesEmergencyLogger | src/Manager.php:99-104 | After one fallback, a later fallback answers with the same cached emergency logger. It registers nothing, builds nothing and leaves the default channel unchanged. |
| Runs.RunPreservesValid | src/Manager.php:86-95 | Every sequence of operations keeps the invariant. A cached logger belongs to a registered channel and carries its name. Each cached channel was built successfully exactly once, and each successful build was a recorded factory call. |
| Runs.RunKeepsCachedLoggers | src/Manager.php:92 | Across any sequence of operations, a cached logger stays cached and unchanged. |
| Runs.RunOnlyAppends | src/Manager.php:92 | Factory calls, successful builds and log entries made earlier are never lost or reordered. |
| Runs.BuiltAtMostOncePerName | src/Manager.php:92 | From a new manager, each channel name is built successfully at most once, and exactly the cached channels have been built. Every cached channel was handed to the factory. Failed builds are not bounded: they are retried. |
| Runs.UnaddedChannelStaysUnknown | src/Manager.php:56-59 | From a valid state where `has(n)` is false, any sequence of operations none of which adds `n` leaves `has(n)` false, unless `n` is the emergency channel, which the fallback registers. |
| Runs.FailedChannelIsBuiltAgain | src/Manager.php:86-95 | With a backend that refuses every configuration and the fallback off, two lookups of a registered channel call the factory twice, and nothing is built or cached. |
| Runs.DefaultOnlyChosen | src/Manager.php:37-39 | The default channel only ever becomes one of two things: a name chosen by `setDefaultChannel` or by `add` with `default` true, or the emergency channel. |
| Scenarios.CreateUsingContainer | tests/FactoryTest.php:55-118 | The test runs here without its seventh handler, the nested formatter map, which the code rejects. The test's `assertCount(7, …)` at tests/FactoryTest.php:99 therefore cannot hold against the code. On the test's container, the remaining six handlers and two processors resolve as the test asserts. Keys are looked up, the invokable class and the closure are invoked, and instances are kept. Structured handlers get their formatter resolved. Both lists keep their order. |
| Scenarios.CreateWithNestedFormatterMapFails | tests/FactoryTest.php:83-88 | Adding the handler whose formatter is `{name: LineFormatter}` makes `create` fail with a type error. |
| Scenarios.CreateFailsWhenKeyCannotBeResolved | tests/FactoryTest.php:120-135 | With an empty container, the NoopHandler key fails with the message `Could not resolve "Monolog\Handler\NoopHandler"`. |
| Scenarios.AddedChannelAsDefault | tests/ManagerTest.php:46-70 | A channel added with `default` true is registered and is the default. `channel()` answers its logger. |
| Scenarios.AddedChannelIsNotDefault | tests/ManagerTest.php:54-63 | A channel added with `default` false leaves the default null until `setDefaultChannel`. |
| Scenarios.MissingChannelFallsBack | tests/ManagerTest.php:79-97 | `channel('foo')` and `channel()` on an empty manager answer the emergency logger. With the fallback disabled, `channel('foo')` throws. |
| Scenarios.LogProxiesToDefaultChannel | tests/ManagerTest.php:121-144 | A warning logged through the manager reaches the default channel's logger with the same level, message and context. |

## Left out

- The backend logger factory (`MonologFactory\LoggerFactory::create`) is a
  parameter that accepts or refuses a configuration. Handler construction,
  `params` and handler level filtering are not modelled, and nor is what
  the backend writes.
- Real log output, including the emergency `StreamHandler` writing to
  `php://stderr`, is I/O. A log call is one entry appended to `trace`.
- `__call` forwards any other method to `channel()` by reflection. Arbitrary
  dynamic dispatch has no counterpart in the model.
- PHP run-time type introspection is a constructor of `Value`, fixed when the
  value is built. Arrays used as callables (`[object, 'method']`) are not
  modelled; a `Struct` is never callable.
- Factory.ResolveFromContainer: the invoked code is total and never throws.
  An exception thrown by a user factory is not modelled.
- Values other than objects, strings and maps (null, integers) in handler or
  processor lists are not modelled.
- `prepareConfigUsingContainer` reads `handlers` and `processors` without
  checking that the keys exist (src/Factory.php:57,61). An absent key
  raises PHP's "Undefined array key" warning before the value counts as
  absent. With a container attached, this happens on every emergency build,
  because the emergency configuration has no `processors`. The model keeps
  the outcome (the key stays absent) and not the warning.
- `array_map` keeps the keys of the handler and processor arrays
  (src/Factory.php:70,75). The model's lists are sequences, so string or
  non-consecutive keys of those arrays are not modelled.
- A `handlers` or `processors` value that is not an array is passed to the
  backend unchanged by the code. `ChannelConfig` has no such value: it
  counts as absent, so the backend sees no key where PHP passes the value
  on.
- A `default` flag that is neither a boolean nor null (PHP truthiness) is not
  modelled.
- The PSR-3 level check of `log($level, …)` is not modelled: levels are the
  closed `Level` datatype.
- The exception class hierarchy and `catch (Throwable)` become one
  `Exception` datatype, all of whose members `channel()` catches.
- The container's contents, the code callables run and the backend are
  fixed for the whole life of the factory and the manager. In PHP a retried
  build (src/Manager.php:92) asks the live container and the user code
  again, so it can succeed after the first failure, for instance once a
  service has been registered. The model does not cover such a retry;
  `Manager.FailedBuildIsRetried` proves only that the factory is called
  again.
- The manager holds the factory value it was built with. Attaching a
  container to the shared factory object after the manager exists is not a
  manager operation here.

=== FILE: factory.dfy ===
/**
 * The channel factory: turns a channel configuration into the configuration
 * handed to the backend logger factory, resolving handler, processor and
 * formatter references against an optional container.
 */
module Factory {
  import opened Values

  /** Runs the callable named by an id with the container as its single
      argument: a closure, an object with `__invoke`, a PHP function named by
      a string, or a fresh instance of a class with `__invoke`. These are
      user code, so they are a parameter of the model. */
  type Invoker = (nat, Container) -> Value

  /** Whether the backend logger factory builds a logger from a name and a
      configuration, or throws. The backend is a parameter of the model. */
  type Backend = (string, ChannelConfig) -> bool

  datatype FactoryState = FactoryState(container: Option<Container>, invoke: Invoker, backend: Backend)

  /** The two lists of a configuration the factory resolves. */
  datatype ListKind = Handlers | Processors

  /** `hasContainer`: whether a container is attached; only then does
      `create` resolve references. */
  predicate HasContainer(f: FactoryState) {
    f.container.Some?
  }

  /** The constructor; the container is optional. */
  function New(container: Option<Container>, invoke: Invoker, backend: Backend): (f: FactoryState)
    ensures HasContainer(f) <==> container.Some?
    ensures f.container == container && f.invoke == invoke && f.backend == backend
  {
    FactoryState(container, invoke, backend)
  }

  /** Attaches a container, or detaches it when given None. */
  function UseContainer(f: FactoryState, container: Option<Container>): (f': FactoryState)
    ensures HasContainer(f') <==> container.Some?
    ensures f'.container == container && f'.invoke == f.invoke && f'.backend == f.backend
  {
    f.(container := container)
  }

  /** What `getCallable` finds: the callee of a callable value or of a
      string naming an invokable class. For a plain key the answer is None.
      For an array or a non-callable object, `class_exists` throws the
      strict-types TypeError inside `getCallable`. Here that value gets None,
      and `ResolveFromContainer` raises the same error as `NotAReference`. */
  function GetCallable(v: Value): (r: Option<nat>)
    ensures r.Some? <==> v.InvokableName? || (v.Object? && v.invoke.Some?)
    ensures v.InvokableName? ==> r == Some(v.callee)
    ensures v.Object? ==> r == v.invoke
    ensures v.Key? || v.Struct? ==> r.None?
  {
    match v
    case Object(_, _, invoke) => invoke
    case InvokableName(_, callee) => Some(callee)
    case _ => None
  }

  /**
   * `resolveFromContainer`: a string the container has is looked up;
   * otherwise a callable is invoked with the container; otherwise a string
   * fails with "Could not resolve", and anything else fails in
   * `class_exists`.
   */
  function ResolveFromContainer(c: Container, invoke: Invoker, v: Value): (r: Result<Value>)
    ensures AsString(v).Some? && AsString(v).value in c ==> r == Ok(c[AsString(v).value])
    ensures (AsString(v).None? || AsString(v).value !in c) && GetCallable(v).Some?
      ==> r == Ok(invoke(GetCallable(v).value, c))
    ensures r.Throw? <==> (AsString(v).None? || AsString(v).value !in c) && GetCallable(v).None?
    ensures forall s :: r == Throw(CouldNotResolve(s)) <==> v == Key(s) && s !in c
    ensures r.Throw? && AsString(v).None? ==> r.e == NotAReference
  {
    match v
    case Key(s) =>
      if s in c then Ok(c[s]) else Throw(CouldNotResolve(s))
    case InvokableName(s, callee) =>
      if s in c then Ok(c[s]) else Ok(invoke(callee, c))
    case Object(_, _, callable) =>
      if callable.Some? then Ok(invoke(callable.value, c)) else Throw(NotAReference)
    case Struct(_, _, _) =>
      Throw(NotAReference)
  }

  /** `resolveFormatter`: a formatter instance is kept; anything else is
      resolved from the container and must come out a formatter. */
  function ResolveFormatter(c: Container, invoke: Invoker, v: Value): (r: Result<Value>)
    ensures IsInstance(v, FormatterRole) ==> r == Ok(v)
    ensures r.Ok? ==> IsInstance(r.value, FormatterRole)
    ensures !IsInstance(v, FormatterRole) ==>
      (r.Ok? <==> ResolveFromContainer(c, invoke, v).Ok? && IsInstance(ResolveFromContainer(c, invoke, v).value, FormatterRole))
    ensures !IsInstance(v, FormatterRole) && r.Ok? ==> r == ResolveFromContainer(c, invoke, v)
    ensures !IsInstance(v, FormatterRole) && ResolveFromContainer(c, invoke, v).Throw?
      ==> r == ResolveFromContainer(c, invoke, v)
    ensures (!IsInstance(v, FormatterRole) && ResolveFromContainer(c, invoke, v).Ok?
             && !IsInstance(ResolveFromContainer(c, invoke, v).value, FormatterRole))
      ==> r == Throw(NotAFormatter)
  {
    if IsInstance(v, FormatterRole) then Ok(v)
    else match ResolveFromContainer(c, invoke, v)
      case Throw(e) => Throw(e)
      case Ok(w) => if IsInstance(w, FormatterRole) then Ok(w) else Throw(NotAFormatter)
  }

  /** `resolveHandler`: a handler instance is kept; of a structured entry
      only the formatter is resolved; anything else is resolved from the
      container. */
  function ResolveHandler(c: Container, invoke: Invoker, v: Value): (r: Result<Value>)
    ensures IsInstance(v, HandlerRole) ==> r == Ok(v)
    ensures v.Struct? && v.formatter.None? ==> r == Ok(v)
    ensures v.Struct? && v.formatter.Some? ==>
      match ResolveFormatter(c, invoke, v.formatter.value)
      case Ok(fmt) => r == Ok(v.(formatter := Some(fmt)))
      case Throw(e) => r == Throw(e)
    ensures !IsInstance(v, HandlerRole) && !v.Struct? ==> r == ResolveFromContainer(c, invoke, v)
    ensures r.Ok? && v.Struct? ==> r.value.Struct? && r.value.target == v.target && r.value.params == v.params
  {
    if IsInstance(v, HandlerRole) then Ok(v)
    else if !v.Struct? then ResolveFromContainer(c, invoke, v)
    else if v.formatter.None? then Ok(v)
    else match ResolveFormatter(c, invoke, v.formatter.value)
      case Throw(e) => Throw(e)
      case Ok(fmt) => Ok(v.(formatter := Some(fmt)))
  }

  /** `resolveProcessor`: a processor instance is kept; anything else is
      resolved from the container. */
  function ResolveProcessor(c: Container, invoke: Invoker, v: Value): (r: Result<Value>)
    ensures IsInstance(v, ProcessorRole) ==> r == Ok(v)
    ensures !IsInstance(v, ProcessorRole) ==> r == ResolveFromContainer(c, invoke, v)
  {
    if IsInstance(v, ProcessorRole) then Ok(v) else ResolveFromContainer(c, invoke, v)
  }

  function Resolve(c: Container, invoke: Invoker, kind: ListKind, v: Value): (r: Result<Value>) {
    match kind
    case Handlers => ResolveHandler(c, invoke, v)
    case Processors => ResolveProcessor(c, invoke, v)
  }

  /**
   * `prepareHandlers` / `prepareProcessors`: resolves every entry in order.
   * The list succeeds exactly when every entry does, and then entry i of the
   * result is the resolution of entry i; otherwise the exception is the one
   * of the first entry that fails.
   */
  function ResolveList(c: Container, invoke: Invoker, kind: ListKind, xs: seq<Value>): (r: Result<seq<Value>>)
    ensures r.Ok? <==> forall i :: 0 <= i < |xs| ==> Resolve(c, invoke, kind, xs[i]).Ok?
    ensures r.Ok? ==> |r.value| == |xs|
    ensures r.Ok? ==> forall i :: 0 <= i < |xs| ==> Resolve(c, invoke, kind, xs[i]) == Ok(r.value[i])
    ensures r.Throw? ==> exists i :: (0 <= i < |xs| && Resolve(c, invoke, kind, xs[i]) == Throw(r.e)
      && forall j :: 0 <= j < i ==> Resolve(c, invoke, kind, xs[j]).Ok?)
    decreases |xs|
  {
    if |xs| == 0 then Ok([])
    else match Resolve(c, invoke, kind, xs[0])
      case Throw(e) => Throw(e)
      case Ok(y) =>
        var rest := ResolveList(c, invoke, kind, xs[1..]);
        assert forall i :: 1 <= i < |xs| ==> xs[i] == xs[1..][i - 1];
        match rest
        case Throw(e) => Throw(e)
        case Ok(ys) => Ok([y] + ys)
  }

  /** `prepareConfigUsingContainer`: resolves the handler list, then the
      processor list, when each is present; every other key is untouched. */
  function PrepareConfig(c: Container, invoke: Invoker, cfg: ChannelConfig): (r: Result<ChannelConfig>)
    ensures r.Ok? ==> r.value.default == cfg.default && r.value.extra == cfg.extra
    ensures r.Ok? ==> (r.value.handlers.Some? <==> cfg.handlers.Some?) && (r.value.processors.Some? <==> cfg.processors.Some?)
    ensures r.Ok? && cfg.handlers.Some? ==> ResolveList(c, invoke, Handlers, cfg.handlers.value) == Ok(r.value.handlers.value)
    ensures r.Ok? && cfg.processors.Some? ==> ResolveList(c, invoke, Processors, cfg.processors.value) == Ok(r.value.processors.value)
    ensures cfg.handlers.Some? && ResolveList(c, invoke, Handlers, cfg.handlers.value).Throw?
      ==> r == Throw(ResolveList(c, invoke, Handlers, cfg.handlers.value).e)
    ensures r.Throw? && (cfg.handlers.None? || ResolveList(c, invoke, Handlers, cfg.handlers.value).Ok?)
      ==> (cfg.processors.Some? && ResolveList(c, invoke, Processors, cfg.processors.value).Throw?
           && r.e == ResolveList(c, invoke, Processors, cfg.processors.value).e)
  {
    var handlers :=
      if cfg.handlers.None? then Ok(None)
      else match ResolveList(c, invoke, Handlers, cfg.handlers.value)
        case Throw(e) => Throw(e)
        case Ok(hs) => Ok(Some(hs));
    if handlers.Throw? then Throw(handlers.e)
    else
      var processors :=
        if cfg.processors.None? then Ok(None)
        else match ResolveList(c, invoke, Processors, cfg.processors.value)
          case Throw(e) => Throw(e)
          case Ok(ps) => Ok(Some(ps));
      if processors.Throw? then Throw(processors.e)
      else Ok(cfg.(handlers := handlers.value, processors := processors.value))
  }

  /**
   * `create`: without a container the configuration reaches the backend
   * unchanged; with one, it is prepared first, and a resolution failure
   * means no logger is built.
   */
  function Create(f: FactoryState, name: string, cfg: ChannelConfig): (r: Result<Logger>)
    ensures r.Ok? ==> r.value.name == name
    ensures !HasContainer(f) ==> (r.Ok? <==> f.backend(name, cfg))
    ensures !HasContainer(f) && r.Ok? ==> r.value.config == cfg
    ensures HasContainer(f) ==>
      match PrepareConfig(f.container.value, f.invoke, cfg)
      case Throw(e) => r == Throw(e)
      case Ok(prepared) => (r.Ok? <==> f.backend(name, prepared)) && (r.Ok? ==> r.value.config == prepared)
    ensures r.Throw? && (!HasContainer(f) || PrepareConfig(f.container.value, f.invoke, cfg).Ok?)
      ==> r.e == BackendFailure(name)
  {
    var prepared := if f.container.Some? then PrepareConfig(f.container.value, f.invoke, cfg) else Ok(cfg);
    if prepared.Throw? then Throw(prepared.e)
    else if f.backend(name, prepared.value) then Ok(Logger(name, prepared.value))
    else Throw(BackendFailure(name))
  }

  /** A string key the container has wins over every other reading of the
      string: it is looked up even when it also names an invokable class. */
  lemma ContainerKeyTakesPrecedence(c: Container, invoke: Invoker, v: Value)
    requires AsString(v).Some? && AsString(v).value in c
    ensures ResolveHandler(c, invoke, v) == Ok(c[AsString(v).value])
    ensures ResolveProcessor(c, invoke, v) == Ok(c[AsString(v).value])
  {
  }

  /** A handler entry that resolves to nothing aborts `create` when every
      entry before it resolves: no logger is built, and the exception names
      the reference. */
  lemma UnresolvableHandlerAbortsCreate(f: FactoryState, name: string, cfg: ChannelConfig, i: nat, key: string)
    requires HasContainer(f) && key !in f.container.value
    requires cfg.handlers.Some? && i < |cfg.handlers.value| && cfg.handlers.value[i] == Key(key)
    requires forall j :: 0 <= j < i ==> ResolveHandler(f.container.value, f.invoke, cfg.handlers.value[j]).Ok?
    ensures Create(f, name, cfg) == Throw(CouldNotResolve(key))
  {
  }

  /** A structured formatter entry `{name: ...}` is not unpacked: it reaches
      `resolveFromContainer` as an array, which is neither a string nor
      callable, so the handler fails to resolve. */
  lemma NestedFormatterMapIsNotResolved(c: Container, invoke: Invoker, handler: Value)
    requires handler.Struct? && handler.formatter.Some? && handler.formatter.value.Struct?
    ensures ResolveHandler(c, invoke, handler) == Throw(NotAReference)
  {
  }
}

=== FILE: manager.dfy ===
/**
 * The channel manager: registered channel configurations, lazily built and
 * cached loggers, the default channel, and the fallback to an emergency
 * channel when a channel cannot be looked up or built.
 *
 * The manager is a state value; every operation returns the next state.
 * Log calls made on built loggers are recorded, in order, in `trace`; every
 * name handed to the factory is recorded, in order, in `attempts`, and the
 * names whose build succeeded (and was cached) in `builds`.
 */
module Manager {
  import opened Values
  import Factory

  const EMERGENCY_CHANNEL: string := "monolog-manager-emergency"
  const FALLBACK_REASON: string := "Error encountered, using fallback emergency logger"
  const STREAM_HANDLER: string := "Monolog\\Handler\\StreamHandler"

  /** The configuration `addEmergencyLogger` registers: one stream handler
      on the standard error stream at the most verbose level. */
  const EMERGENCY_CONFIG: ChannelConfig := ChannelConfig(
    Some([Struct(Key(STREAM_HANDLER), map["stream" := "php://stderr", "level" := "debug"], None)]),
    None, None, map[])

  /** The PSR-3 severities, most severe first. */
  datatype Level = Emergency | Alert | Critical | Error | Warning | Notice | Info | Debug

  datatype ContextValue = Text(text: string) | Thrown(exception: Exception)

  type Context = map<string, ContextValue>

  /** One call on a built logger: the logger's name, the level, the message
      and the context. */
  datatype LogEntry = LogEntry(channel: string, level: Level, message: string, context: Context)

  datatype State = State(
    factory: Factory.FactoryState,
    channelConfigs: map<string, ChannelConfig>,
    channels: map<string, Logger>,
    defaultChannel: Option<string>,
    useEmergencyChannel: bool,
    attempts: seq<string>,
    builds: seq<string>,
    trace: seq<LogEntry>)

  /** The outcome of an operation that may throw, with the state after it. */
  datatype Step<+T> = Step(result: Result<T>, state: State)

  predicate NoDuplicates<T(==)>(s: seq<T>) {
    forall i, j :: 0 <= i < j < |s| ==> s[i] != s[j]
  }

  /** Every map entry of `a` is still in `b`, with the same value. */
  predicate Extends<K, V(==)>(a: map<K, V>, b: map<K, V>) {
    forall k :: k in a ==> k in b && b[k] == a[k]
  }

  /**
   * The invariant every reachable state keeps: a logger is cached only for a
   * registered channel and carries that channel's name, a successful build
   * happened exactly once for each cached channel and for no other, and
   * every successful build was a factory call.
   */
  ghost predicate Valid(m: State) {
    && m.channels.Keys <= m.channelConfigs.Keys
    && (forall n :: n in m.channels ==> m.channels[n].name == n)
    && NoDuplicates(m.builds)
    && (forall n :: n in m.channels <==> n in m.builds)
    && (forall n :: n in m.builds ==> n in m.attempts)
  }

  /** The constructor: nothing registered, nothing built, no default
      channel, fallback enabled. */
  function New(factory: Factory.FactoryState): (m: State)
    ensures Valid(m)
    ensures forall n :: !Has(m, n)
    ensures GetDefaultChannel(m).None? && m.useEmergencyChannel
    ensures m.attempts == [] && m.builds == [] && m.trace == []
  {
    State(factory, map[], map[], None, true, [], [], [])
  }

  /** The configuration `add` stores: `default` filled in as false when
      absent or null. */
  function WithDefaultFlag(cfg: ChannelConfig): (stored: ChannelConfig)
    ensures stored.default.Some?
    ensures stored.default.value <==> cfg.default == Some(true)
    ensures stored.handlers == cfg.handlers && stored.processors == cfg.processors && stored.extra == cfg.extra
  {
    cfg.(default := Some(cfg.default.GetOr(false)))
  }

  /** `has`: a channel is known when it is cached or registered; in a valid
      state its registration alone decides. */
  predicate Has(m: State, name: string)
    ensures Valid(m) ==> (Has(m, name) <==> name in m.channelConfigs)
  {
    name in m.channels || name in m.channelConfigs
  }

  /** `getDefaultChannel`: null until a default is chosen by `add`,
      `setDefaultChannel` or the fallback. */
  function GetDefaultChannel(m: State): (d: Option<string>) {
    m.defaultChannel
  }

  /**
   * `add`: registers (or overwrites) a channel's configuration without
   * building it, and makes it the default channel exactly when its
   * `default` flag is true.
   */
  function Add(m: State, name: string, cfg: ChannelConfig): (r: State)
    ensures Has(r, name)
    ensures r.channelConfigs.Keys == m.channelConfigs.Keys + {name}
    ensures r.channelConfigs[name] == WithDefaultFlag(cfg)
    ensures forall n :: n in m.channelConfigs && n != name ==> r.channelConfigs[n] == m.channelConfigs[n]
    ensures cfg.default == Some(true) ==> GetDefaultChannel(r) == Some(name)
    ensures cfg.default != Some(true) ==> GetDefaultChannel(r) == GetDefaultChannel(m)
    ensures r.channels == m.channels && r.attempts == m.attempts && r.builds == m.builds && r.trace == m.trace
    ensures r.factory == m.factory && r.useEmergencyChannel == m.useEmergencyChannel
    ensures Valid(m) ==> Valid(r)
  {
    var stored := WithDefaultFlag(cfg);
    var r := m.(channelConfigs := m.channelConfigs[name := stored]);
    if stored.default.value then SetDefaultChannel(r, name) else r
  }

  /** `setDefaultChannel`: changes the default channel and nothing else. */
  function SetDefaultChannel(m: State, name: string): (r: State)
    ensures GetDefaultChannel(r) == Some(name)
    ensures r.channelConfigs == m.channelConfigs && r.channels == m.channels
    ensures r.attempts == m.attempts && r.builds == m.builds && r.trace == m.trace
    ensures r.factory == m.factory && r.useEmergencyChannel == m.useEmergencyChannel
    ensures Valid(m) ==> Valid(r)
  {
    m.(defaultChannel := Some(name))
  }

  /** `useEmergencyChannel`: switches the fallback on or off and changes
      nothing else. */
  function UseEmergencyChannel(m: State, enabled: bool): (r: State)
    ensures r.useEmergencyChannel == enabled
    ensures r.channelConfigs == m.channelConfigs && r.channels == m.channels
    ensures r.defaultChannel == m.defaultChannel && r.attempts == m.attempts
    ensures r.builds == m.builds && r.trace == m.trace
    ensures r.factory == m.factory
    ensures Valid(m) ==> Valid(r)
  {
    m.(useEmergencyChannel := enabled)
  }

  /**
   * `get`: an unregistered name throws; a cached logger is returned without
   * calling the factory; otherwise the factory builds the logger from the
   * stored configuration and the result is cached. A failed build caches
   * nothing, so the next `get` of the name calls the factory again.
   */
  function Get(m: State, name: string): (s: Step<Logger>)
    ensures !Has(m, name) ==> s == Step(Throw(UndefinedChannel(name)), m)
    ensures name in m.channels ==> s == Step(Ok(m.channels[name]), m)
    ensures Has(m, name) && name !in m.channels ==>
      (s.result.Ok? <==> Factory.Create(m.factory, name, m.channelConfigs[name]).Ok?)
    ensures Has(m, name) && name !in m.channels ==>
      s.result == Factory.Create(m.factory, name, m.channelConfigs[name])
    ensures s.state.attempts == if Has(m, name) && name !in m.channels then m.attempts + [name] else m.attempts
    ensures s.result.Throw? ==> s.state == m.(attempts := s.state.attempts)
    ensures s.result.Ok? ==> name in s.state.channels && s.state.channels[name] == s.result.value
    ensures s.state.builds == m.builds || (name !in m.channels && s.state.builds == m.builds + [name])
    ensures Extends(m.channels, s.state.channels) && s.state.channels.Keys <= m.channels.Keys + {name}
    ensures s.state.channelConfigs == m.channelConfigs && s.state.defaultChannel == m.defaultChannel
    ensures s.state.trace == m.trace && s.state.factory == m.factory
    ensures s.state.useEmergencyChannel == m.useEmergencyChannel
    ensures Valid(m) ==> Valid(s.state)
    ensures Valid(m) && s.result.Ok? ==> s.result.value.name == name
  {
    if !Has(m, name) then Step(Throw(UndefinedChannel(name)), m)
    else if name in m.channels then Step(Ok(m.channels[name]), m)
    else match Factory.Create(m.factory, name, m.channelConfigs[name])
      case Throw(e) => Step(Throw(e), m.(attempts := m.attempts + [name]))
      case Ok(logger) =>
        var r := m.(channels := m.channels[name := logger], attempts := m.attempts + [name], builds := m.builds + [name]);
        assert Valid(m) ==> NoDuplicates(r.builds) by {
          if Valid(m) {
            assert name !in m.builds;
          }
        }
        Step(Ok(logger), r)
  }

  /** `addEmergencyLogger`: registers the fixed emergency configuration
      under the given name. */
  function AddEmergencyLogger(m: State, name: string): (r: State)
    ensures name in r.channelConfigs && r.channelConfigs[name] == WithDefaultFlag(EMERGENCY_CONFIG)
    ensures r.channelConfigs[name].default == Some(false)
    ensures r.channelConfigs == m.channelConfigs[name := WithDefaultFlag(EMERGENCY_CONFIG)]
    ensures GetDefaultChannel(r) == GetDefaultChannel(m)
    ensures r.channels == m.channels && r.attempts == m.attempts && r.builds == m.builds && r.trace == m.trace
    ensures r.factory == m.factory && r.useEmergencyChannel == m.useEmergencyChannel
    ensures Valid(m) ==> Valid(r)
  {
    Add(m, name, EMERGENCY_CONFIG)
  }

  /** The state `getEmergencyLogger` builds the emergency logger in: the
      emergency channel is registered and made the default only when it is
      not registered yet. */
  function WithEmergencyChannel(m: State): (r: State)
    ensures Has(r, EMERGENCY_CHANNEL)
    ensures Has(m, EMERGENCY_CHANNEL) ==> r == m
    ensures !Has(m, EMERGENCY_CHANNEL) ==>
      && r.channelConfigs == m.channelConfigs[EMERGENCY_CHANNEL := WithDefaultFlag(EMERGENCY_CONFIG)]
      && GetDefaultChannel(r) == Some(EMERGENCY_CHANNEL)
    ensures r.channels == m.channels && r.attempts == m.attempts && r.builds == m.builds && r.trace == m.trace
    ensures r.factory == m.factory && r.useEmergencyChannel == m.useEmergencyChannel
    ensures Valid(m) ==> Valid(r)
  {
    if Has(m, EMERGENCY_CHANNEL) then m
    else SetDefaultChannel(AddEmergencyLogger(m, EMERGENCY_CHANNEL), EMERGENCY_CHANNEL)
  }

  /**
   * `getEmergencyLogger`: gets the emergency channel's logger (registering
   * the channel first when needed) and logs one emergency-level entry on it
   * carrying the exception. A failure to build it is thrown.
   */
  function EmergencyLogger(m: State, reason: string, exception: Exception): (s: Step<Logger>)
    ensures var got := Get(WithEmergencyChannel(m), EMERGENCY_CHANNEL);
      && (s.result.Ok? <==> got.result.Ok?)
      && (got.result.Throw? ==> s == got)
      && (got.result.Ok? ==>
            && s.result.value == got.result.value
            && s.state == got.state.(trace := s.state.trace)
            && s.state.trace == m.trace + [LogEntry(got.result.value.name, Emergency, reason, map["exception" := Thrown(exception)])])
    ensures s.state.channelConfigs == WithEmergencyChannel(m).channelConfigs
    ensures s.state.defaultChannel == WithEmergencyChannel(m).defaultChannel
    ensures Extends(m.channels, s.state.channels)
    ensures m.attempts <= s.state.attempts && m.builds <= s.state.builds && m.trace <= s.state.trace
    ensures s.state.factory == m.factory && s.state.useEmergencyChannel == m.useEmergencyChannel
    ensures Valid(m) ==> Valid(s.state)
    ensures Valid(m) && s.result.Ok? ==> s.result.value.name == EMERGENCY_CHANNEL
  {
    var got := Get(WithEmergencyChannel(m), EMERGENCY_CHANNEL);
    if got.result.Throw? then got
    else
      var entry := LogEntry(got.result.value.name, Emergency, reason, map["exception" := Thrown(exception)]);
      Step(got.result, got.state.(trace := got.state.trace + [entry]))
  }

  /** The name `channel` looks up: the given one, else the default. */
  function Target(m: State, name: Option<string>): (t: Option<string>)
    ensures name.Some? ==> t == name
    ensures name.None? ==> t == GetDefaultChannel(m)
  {
    if name.Some? then name else m.defaultChannel
  }

  /** The guarded part of `channel`: throws when there is no name to look
      up, otherwise gets the channel. */
  function Lookup(m: State, name: Option<string>): (s: Step<Logger>)
    ensures Target(m, name).None? ==> s == Step(Throw(NoDefaultChannel), m)
    ensures Target(m, name).Some? ==> s == Get(m, Target(m, name).value)
    ensures s.result.Throw? ==> s.state == m.(attempts := s.state.attempts)
    ensures Valid(m) ==> Valid(s.state)
  {
    var target := Target(m, name);
    if target.None? then Step(Throw(NoDefaultChannel), m) else Get(m, target.value)
  }

  /**
   * `channel`: looks the channel up; on failure, throws when the fallback
   * is disabled, and otherwise answers with the emergency logger.
   */
  function Channel(m: State, name: Option<string>): (s: Step<Logger>)
    ensures Lookup(m, name).result.Ok? ==> s == Lookup(m, name)
    ensures !m.useEmergencyChannel ==> s == Lookup(m, name)
    ensures Lookup(m, name).result.Throw? && m.useEmergencyChannel
      ==> s == EmergencyLogger(Lookup(m, name).state, FALLBACK_REASON, Lookup(m, name).result.e)
    ensures Extends(m.channels, s.state.channels)
    ensures m.attempts <= s.state.attempts && m.builds <= s.state.builds && m.trace <= s.state.trace
    ensures s.state.defaultChannel == m.defaultChannel || s.state.defaultChannel == Some(EMERGENCY_CHANNEL)
    ensures s.state.factory == m.factory && s.state.useEmergencyChannel == m.useEmergencyChannel
    ensures Valid(m) ==> Valid(s.state)
    ensures Valid(m) && s.result.Ok? ==>
      s.result.value.name == if Lookup(m, name).result.Ok? then Target(m, name).value else EMERGENCY_CHANNEL
  {
    var attempt := Lookup(m, name);
    if attempt.result.Ok? || !m.useEmergencyChannel then attempt
    else EmergencyLogger(attempt.state, FALLBACK_REASON, attempt.result.e)
  }

  /**
   * `log` and the eight level methods (`emergency` … `debug`, each `log`
   * at a fixed level): forwards level, message and context to the logger
   * `channel()` answers with.
   */
  function Log(m: State, level: Level, message: string, context: Context): (s: Step<()>)
    ensures var ch := Channel(m, None);
      && (s.result.Ok? <==> ch.result.Ok?)
      && (ch.result.Throw? ==> s.result == Throw(ch.result.e) && s.state == ch.state)
      && (ch.result.Ok? ==>
            && s.state.trace == ch.state.trace + [LogEntry(ch.result.value.name, level, message, context)]
            && s.state == ch.state.(trace := s.state.trace))
    ensures Extends(m.channels, s.state.channels)
    ensures m.attempts <= s.state.attempts && m.builds <= s.state.builds && m.trace <= s.state.trace
    ensures s.state.defaultChannel == m.defaultChannel || s.state.defaultChannel == Some(EMERGENCY_CHANNEL)
    ensures s.state.factory == m.factory && s.state.useEmergencyChannel == m.useEmergencyChannel
    ensures Valid(m) ==> Valid(s.state)
  {
    var ch := Channel(m, None);
    if ch.result.Throw? then Step(Throw(ch.result.e), ch.state)
    else
      var entry := LogEntry(ch.result.value.name, level, message, context);
      Step(Ok(()), ch.state.(trace := ch.state.trace + [entry]))
  }

  /** A cached logger outlives its configuration: re-adding the channel
      with another configuration does not rebuild it. */
  lemma CachedLoggerSurvivesOverwrite(m: State, name: string, cfg: ChannelConfig)
    requires Get(m, name).result.Ok?
    ensures var first := Get(m, name);
      var m' := Add(first.state, name, cfg);
      Get(m', name) == Step(Ok(first.result.value), m')
  {
  }

  /** A failed build is not cached: every later `get` of the name calls the
      factory again, and only a successful build is recorded in `builds`.
      The factory state is fixed here, so the retry fails the same way. */
  lemma FailedBuildIsRetried(m: State, name: string)
    requires Has(m, name) && name !in m.channels
    requires Factory.Create(m.factory, name, m.channelConfigs[name]).Throw?
    ensures var first := Get(m, name);
      var second := Get(first.state, name);
      && first.result.Throw? && second.result == first.result
      && second.state.attempts == m.attempts + [name, name]
      && second.state.builds == m.builds && second.state.channels == m.channels
  {
    var first := Get(m, name);
    assert first.state == m.(attempts := m.attempts + [name]);
  }

  /** `channel(null)` is `channel` of the default channel. */
  lemma ChannelWithoutNameUsesDefault(m: State)
    requires GetDefaultChannel(m).Some?
    ensures Channel(m, None) == Channel(m, GetDefaultChannel(m))
  {
  }

  /** With the fallback disabled, a missing default and an unregistered
      name are thrown to the caller, and nothing changes. */
  lemma ChannelWithoutFallbackThrows(m: State, name: Option<string>)
    requires !m.useEmergencyChannel
    ensures Target(m, name).None? ==> Channel(m, name) == Step(Throw(NoDefaultChannel), m)
    ensures Target(m, name).Some? && !Has(m, Target(m, name).value)
      ==> Channel(m, name) == Step(Throw(UndefinedChannel(Target(m, name).value)), m)
  {
  }

  /**
   * With the fallback enabled, a failed lookup answers with the logger of
   * the emergency channel after logging exactly one emergency-level entry
   * carrying the exception. The emergency channel is registered, and made
   * the default, only when it was not registered; a failure to build it is
   * thrown.
   */
  lemma FallbackAnswersWithEmergencyLogger(m: State, name: Option<string>)
    requires Valid(m) && m.useEmergencyChannel
    requires Lookup(m, name).result.Throw?
    ensures var s := Channel(m, name);
      var e := Lookup(m, name).result.e;
      && (s.result.Ok? ==>
            && s.result.value.name == EMERGENCY_CHANNEL
            && s.state.trace == m.trace + [LogEntry(EMERGENCY_CHANNEL, Emergency, FALLBACK_REASON, map["exception" := Thrown(e)])])
      && (s.result.Throw? <==> Get(WithEmergencyChannel(m), EMERGENCY_CHANNEL).result.Throw?)
      && (Has(m, EMERGENCY_CHANNEL) ==>
            s.state.channelConfigs == m.channelConfigs && GetDefaultChannel(s.state) == GetDefaultChannel(m))
      && (!Has(m, EMERGENCY_CHANNEL) ==>
            && s.state.channelConfigs == m.channelConfigs[EMERGENCY_CHANNEL := WithDefaultFlag(EMERGENCY_CONFIG)]
            && GetDefaultChannel(s.state) == Some(EMERGENCY_CHANNEL))
  {
  }

  /** The emergency configuration needs no resolution: with or without a
      container, the backend receives it as stored. */
  lemma EmergencyConfigNeedsNoResolution(f: Factory.FactoryState)
    ensures Factory.Create(f, EMERGENCY_CHANNEL, WithDefaultFlag(EMERGENCY_CONFIG)).Ok?
      <==> f.backend(EMERGENCY_CHANNEL, WithDefaultFlag(EMERGENCY_CONFIG))
  {
    var stored := WithDefaultFlag(EMERGENCY_CONFIG);
    if f.container.Some? {
      var hs := stored.handlers.value;
      assert Factory.Resolve(f.container.value, f.invoke, Factory.Handlers, hs[0]) == Ok(hs[0]);
      var r := Factory.ResolveList(f.container.value, f.invoke, Factory.Handlers, hs);
      assert r.Ok? && |r.value| == 1 && r.value[0] == hs[0];
      assert r.value == hs;
      assert Factory.PrepareConfig(f.container.value, f.invoke, stored) == Ok(stored);
    }
  }

  /**
   * With the fallback enabled, `channel` never throws once the emergency
   * logger is cached, or when the emergency channel is not registered yet
   * and the backend builds the emergency configuration.
   */
  lemma FallbackNeverThrows(m: State, name: Option<string>)
    requires Valid(m) && m.useEmergencyChannel
    requires || EMERGENCY_CHANNEL in m.channels
             || (!Has(m, EMERGENCY_CHANNEL) && m.factory.backend(EMERGENCY_CHANNEL, WithDefaultFlag(EMERGENCY_CONFIG)))
    ensures Channel(m, name).result.Ok?
  {
    if Lookup(m, name).result.Throw? {
      EmergencyConfigNeedsNoResolution(m.factory);
      var m1 := WithEmergencyChannel(m);
      if EMERGENCY_CHANNEL !in m.channels {
        assert m1.channelConfigs[EMERGENCY_CHANNEL] == WithDefaultFlag(EMERGENCY_CONFIG);
      }
      assert Get(m1, EMERGENCY_CHANNEL).result.Ok?;
    }
  }

  /** Once a fallback has produced the emergency logger, later fallbacks
      answer with the same cached logger and register nothing. */
  lemma LaterFallbackReusesEmergencyLogger(m: State, first: Option<string>, second: Option<string>)
    requires Valid(m) && m.useEmergencyChannel
    requires Lookup(m, first).result.Throw? && Channel(m, first).result.Ok?
    requires Lookup(Channel(m, first).state, second).result.Throw?
    ensures var m1 := Channel(m, first).state;
      var s := Channel(m1, second);
      && s.result == Channel(m, first).result
      && s.state.channelConfigs == m1.channelConfigs
      && GetDefaultChannel(s.state) == GetDefaultChannel(m1)
      && s.state.channels == m1.channels && s.state.builds == m1.builds
  {
  }
}

=== FILE: runs.dfy ===
/**
 * Properties of every sequence of manager operations: the invariant holds
 * throughout, each channel is built successfully at most once, a cached
 * logger is never replaced, recorded calls are never lost, and the default
 * channel only ever becomes a name the caller chose or the emergency
 * channel.
 */
module Runs {
  import opened Values
  import opened Manager
  import Factory

  /** The public operations of the manager. */
  datatype Op =
    | AddChannel(name: string, config: ChannelConfig)
    | SetDefault(name: string)
    | ToggleFallback(enabled: bool)
    | GetChannel(channel: Option<string>)
    | LogMessage(level: Level, message: string, context: Context)

  /** The operation makes `name` the default channel: `setDefaultChannel`,
      or `add` with the `default` flag set. */
  predicate ChoosesDefault(op: Op, name: string) {
    || op == SetDefault(name)
    || (op.AddChannel? && op.name == name && op.config.default == Some(true))
  }

  function Apply(m: State, op: Op): (r: State)
    ensures Valid(m) ==> Valid(r)
    ensures Extends(m.channels, r.channels)
    ensures m.attempts <= r.attempts && m.builds <= r.builds && m.trace <= r.trace
    ensures forall n :: (n !in m.channelConfigs && n != EMERGENCY_CHANNEL && !(op.AddChannel? && op.name == n)
                         ==> n !in r.channelConfigs)
    ensures || r.defaultChannel == m.defaultChannel
            || r.defaultChannel == Some(EMERGENCY_CHANNEL)
            || (r.defaultChannel.Some? && ChoosesDefault(op, r.defaultChannel.value))
  {
    match op
    case AddChannel(name, config) => Add(m, name, config)
    case SetDefault(name) => SetDefaultChannel(m, name)
    case ToggleFallback(enabled) => UseEmergencyChannel(m, enabled)
    case GetChannel(channel) => Channel(m, channel).state
    case LogMessage(level, message, context) => Log(m, level, message, context).state
  }

  function Run(m: State, ops: seq<Op>): (r: State)
    decreases |ops|
  {
    if |ops| == 0 then m else Run(Apply(m, ops[0]), ops[1..])
  }

  lemma {:induction false} RunPreservesValid(m: State, ops: seq<Op>)
    requires Valid(m)
    ensures Valid(Run(m, ops))
    decreases |ops|
  {
    if |ops| > 0 {
      RunPreservesValid(Apply(m, ops[0]), ops[1..]);
    }
  }

  /** A logger, once cached, stays cached unchanged: later calls return the
      same instance whatever the configuration becomes. */
  lemma {:induction false} RunKeepsCachedLoggers(m: State, ops: seq<Op>)
    ensures Extends(m.channels, Run(m, ops).channels)
    decreases |ops|
  {
    if |ops| > 0 {
      RunKeepsCachedLoggers(Apply(m, ops[0]), ops[1..]);
    }
  }

  /** The factory calls, the successful builds and the log calls of a run
      extend those made before it. */
  lemma {:induction false} RunOnlyAppends(m: State, ops: seq<Op>)
    ensures m.attempts <= Run(m, ops).attempts
    ensures m.builds <= Run(m, ops).builds
    ensures m.trace <= Run(m, ops).trace
    decreases |ops|
  {
    if |ops| > 0 {
      RunOnlyAppends(Apply(m, ops[0]), ops[1..]);
    }
  }

  /** From a fresh manager, each channel name is built successfully at most
      once, exactly the cached channels have been built, and each of them
      was handed to the factory. A failed build is not counted: the factory
      is asked again on the next lookup. */
  lemma BuiltAtMostOncePerName(factory: Factory.FactoryState, ops: seq<Op>)
    ensures NoDuplicates(Run(New(factory), ops).builds)
    ensures forall n :: n in Run(New(factory), ops).builds <==> n in Run(New(factory), ops).channels
    ensures forall n :: n in Run(New(factory), ops).channels ==> n in Run(New(factory), ops).attempts
  {
    RunPreservesValid(New(factory), ops);
  }

  /** A channel that no operation adds stays unknown: from a valid state
      without it, `has` stays false, unless it is the emergency channel,
      which the fallback registers. */
  lemma {:induction false} UnaddedChannelStaysUnknown(m: State, ops: seq<Op>, n: string)
    requires Valid(m) && !Has(m, n) && n != EMERGENCY_CHANNEL
    requires forall i :: 0 <= i < |ops| ==> !(ops[i].AddChannel? && ops[i].name == n)
    ensures !Has(Run(m, ops), n)
    decreases |ops|
  {
    if |ops| > 0 {
      var m1 := Apply(m, ops[0]);
      assert !Has(m1, n);
      assert forall i :: 0 <= i < |ops[1..]| ==> ops[1..][i] == ops[i + 1];
      UnaddedChannelStaysUnknown(m1, ops[1..], n);
    }
  }

  /** A channel whose build fails is handed to the factory again on every
      lookup, and no successful build is recorded. */
  lemma FailedChannelIsBuiltAgain(cfg: ChannelConfig)
    ensures var f := Factory.New(None, (callee: nat, c: Container) => Key(""), (n: string, c: ChannelConfig) => false);
      var r := Run(New(f), [AddChannel("x", cfg), ToggleFallback(false), GetChannel(Some("x")), GetChannel(Some("x"))]);
      r.attempts == ["x", "x"] && r.builds == [] && "x" !in r.channels
  {
    var f := Factory.New(None, (callee: nat, c: Container) => Key(""), (n: string, c: ChannelConfig) => false);
    var ops := [AddChannel("x", cfg), ToggleFallback(false), GetChannel(Some("x")), GetChannel(Some("x"))];
    var m1 := Add(New(f), "x", cfg);
    var m2 := UseEmergencyChannel(m1, false);
    var m3 := Channel(m2, Some("x")).state;
    assert m3 == m2.(attempts := ["x"]);
    var m4 := Channel(m3, Some("x")).state;
    assert m4 == m2.(attempts := ["x", "x"]);
    assert Run(New(f), ops) == Run(m1, ops[1..]);
    assert ops[1..][0] == ops[1] && ops[1..][1..] == ops[2..];
    assert Run(m1, ops[1..]) == Run(m2, ops[2..]);
    assert ops[2..][0] == ops[2] && ops[2..][1..] == ops[3..];
    assert Run(m2, ops[2..]) == Run(m3, ops[3..]);
    assert ops[3..][0] == ops[3] && ops[3..][1..] == [];
    assert Run(m3, ops[3..]) == Run(m4, []);
  }

  /** The default channel only changes to a name some operation chose, or
      to the emergency channel. */
  lemma {:induction false} DefaultOnlyChosen(m: State, ops: seq<Op>)
    ensures var d := Run(m, ops).defaultChannel;
      || d == m.defaultChannel
      || d == Some(EMERGENCY_CHANNEL)
      || (d.Some? && exists i :: 0 <= i < |ops| && ChoosesDefault(ops[i], d.value))
    decreases |ops|
  {
    if |ops| > 0 {
      var m1 := Apply(m, ops[0]);
      DefaultOnlyChosen(m1, ops[1..]);
      var d := Run(m, ops).defaultChannel;
      assert Run(m, ops) == Run(m1, ops[1..]);
      if d != m1.defaultChannel && d != Some(EMERGENCY_CHANNEL) {
        var i :| 0 <= i < |ops[1..]| && ChoosesDefault(ops[1..][i], d.value);
        assert ChoosesDefault(ops[i + 1], d.value);
      } else if d == m1.defaultChannel && d != m.defaultChannel && d != Some(EMERGENCY_CHANNEL) {
        assert ChoosesDefault(ops[0], d.value);
      }
    }
  }
}

=== FILE: scenarios.dfy ===
/**
 * The behaviour the repository's tests expect, stated as lemmas about the
 * model on the tests' own inputs.
 */
module Scenarios {
  import opened Values
  import Factory
  import opened Manager

  const NOOP_HANDLER: string := "Monolog\\Handler\\NoopHandler"
  const HANDLER_FACTORY: string := "Harbor\\MonologManager\\Tests\\Stub\\HandlerFactory"
  const ERROR_LOG_HANDLER: string := "Monolog\\Handler\\ErrorLogHandler"
  const LINE_FORMATTER: string := "Monolog\\Formatter\\LineFormatter"
  const PSR_PROCESSOR: string := "Monolog\\Processor\\PsrLogMessageProcessor"

  /** Callee 1 is the stub HandlerFactory, which builds a NullHandler;
      callee 2 is the closure that builds a NoopHandler. */
  function TestInvoker(callee: nat, c: Container): Value {
    if callee == 1 then Object(101, {HandlerRole}, None) else Object(102, {HandlerRole}, None)
  }

  function AcceptAll(name: string, cfg: ChannelConfig): bool {
    true
  }

  function TestContainer(): Container {
    map[NOOP_HANDLER := Object(1, {HandlerRole}, None),
        PSR_PROCESSOR := Object(2, {ProcessorRole}, None),
        LINE_FORMATTER := Object(3, {FormatterRole}, None)]
  }

  /** The handlers of the test that resolves through a container, without
      its seventh entry, whose formatter is a nested map and which the code
      rejects (see CreateWithNestedFormatterMapFails). */
  function TestHandlers(): seq<Value> {
    [ Key(NOOP_HANDLER),
      InvokableName(HANDLER_FACTORY, 1),
      Object(4, {HandlerRole}, None),
      Object(5, {}, Some(2)),
      Struct(Key(ERROR_LOG_HANDLER), map[], Some(Key(LINE_FORMATTER))),
      Struct(Key(ERROR_LOG_HANDLER), map[], Some(Object(6, {FormatterRole}, None))) ]
  }

  /** The processor class defines `__invoke`, so its name is invokable; the
      container has it, and the container's entry wins. */
  function TestProcessors(): seq<Value> {
    [InvokableName(PSR_PROCESSOR, 3), Object(7, {ProcessorRole}, None)]
  }

  /** What the test expects the six handlers to resolve to, in order. */
  function ExpectedHandlers(): seq<Value> {
    [ Object(1, {HandlerRole}, None),
      Object(101, {HandlerRole}, None),
      Object(4, {HandlerRole}, None),
      Object(102, {HandlerRole}, None),
      Struct(Key(ERROR_LOG_HANDLER), map[], Some(Object(3, {FormatterRole}, None))),
      Struct(Key(ERROR_LOG_HANDLER), map[], Some(Object(6, {FormatterRole}, None))) ]
  }

  function ExpectedProcessors(): seq<Value> {
    [Object(2, {ProcessorRole}, None), Object(7, {ProcessorRole}, None)]
  }

  /** Container keys are looked up, the invokable class and the closure are
      invoked, instances are kept, structured entries get only their
      formatter resolved, and the order of both lists is kept. */
  lemma CreateUsingContainer()
    ensures
      var f := Factory.New(Some(TestContainer()), TestInvoker, AcceptAll);
      var cfg := ChannelConfig(Some(TestHandlers()), Some(TestProcessors()), None, map[]);
      Factory.Create(f, "logger", cfg)
        == Ok(Logger("logger", cfg.(handlers := Some(ExpectedHandlers()), processors := Some(ExpectedProcessors()))))
  {
    var c := TestContainer();
    var hs, eh := TestHandlers(), ExpectedHandlers();
    assert Factory.Resolve(c, TestInvoker, Factory.Handlers, hs[0]) == Ok(eh[0]);
    assert Factory.Resolve(c, TestInvoker, Factory.Handlers, hs[1]) == Ok(eh[1]);
    assert Factory.Resolve(c, TestInvoker, Factory.Handlers, hs[2]) == Ok(eh[2]);
    assert Factory.Resolve(c, TestInvoker, Factory.Handlers, hs[3]) == Ok(eh[3]);
    assert Factory.Resolve(c, TestInvoker, Factory.Handlers, hs[4]) == Ok(eh[4]);
    assert Factory.Resolve(c, TestInvoker, Factory.Handlers, hs[5]) == Ok(eh[5]);
    var rh := Factory.ResolveList(c, TestInvoker, Factory.Handlers, hs);
    assert rh.Ok? && rh.value == eh;
    var ps, ep := TestProcessors(), ExpectedProcessors();
    assert Factory.Resolve(c, TestInvoker, Factory.Processors, ps[0]) == Ok(ep[0]);
    assert Factory.Resolve(c, TestInvoker, Factory.Processors, ps[1]) == Ok(ep[1]);
    var rp := Factory.ResolveList(c, TestInvoker, Factory.Processors, ps);
    assert rp.Ok? && rp.value == ep;
  }

  /** The same test with the handler whose formatter is `{name: ...}`: the
      nested map is not unpacked, so no logger is built. */
  lemma CreateWithNestedFormatterMapFails()
    ensures
      var f := Factory.New(Some(TestContainer()), TestInvoker, AcceptAll);
      var nested := Struct(Key(ERROR_LOG_HANDLER), map[], Some(Struct(Key(LINE_FORMATTER), map[], None)));
      var cfg := ChannelConfig(Some(TestHandlers() + [nested]), Some(TestProcessors()), None, map[]);
      Factory.Create(f, "logger", cfg) == Throw(NotAReference)
  {
    var c := TestContainer();
    var nested := Struct(Key(ERROR_LOG_HANDLER), map[], Some(Struct(Key(LINE_FORMATTER), map[], None)));
    var hs := TestHandlers() + [nested];
    assert Factory.Resolve(c, TestInvoker, Factory.Handlers, hs[6]) == Throw(NotAReference);
    var rh := Factory.ResolveList(c, TestInvoker, Factory.Handlers, hs);
    assert rh.Throw?;
  }

  /** A key an empty container does not have, naming no invokable class,
      fails with its message. */
  lemma CreateFailsWhenKeyCannotBeResolved()
    ensures
      var f := Factory.New(Some(map[]), TestInvoker, AcceptAll);
      var cfg := ChannelConfig(Some([Key(NOOP_HANDLER)]), None, None, map[]);
      && Factory.Create(f, "logger", cfg) == Throw(CouldNotResolve(NOOP_HANDLER))
      && Message(CouldNotResolve(NOOP_HANDLER)) == "Could not resolve \"Monolog\\Handler\\NoopHandler\""
  {
    var f := Factory.New(Some(map[]), TestInvoker, AcceptAll);
    var cfg := ChannelConfig(Some([Key(NOOP_HANDLER)]), None, None, map[]);
    Factory.UnresolvableHandlerAbortsCreate(f, "logger", cfg, 0, NOOP_HANDLER);
  }

  /** The configuration the manager tests register: one handler instance. */
  function TestConfig(isDefault: bool): ChannelConfig {
    ChannelConfig(Some([Object(9, {HandlerRole}, None)]), None, Some(isDefault), map[])
  }

  function TestManager(): State {
    New(Factory.New(None, TestInvoker, AcceptAll))
  }

  lemma AddedChannelAsDefault()
    ensures var m := Add(TestManager(), "logger", TestConfig(true));
      && Has(m, "logger")
      && GetDefaultChannel(m) == Some("logger")
      && Channel(m, None).result == Ok(Logger("logger", WithDefaultFlag(TestConfig(true))))
  {
  }

  lemma AddedChannelIsNotDefault()
    ensures var m := Add(TestManager(), "logger", TestConfig(false));
      && Has(m, "logger")
      && GetDefaultChannel(m).None?
      && GetDefaultChannel(SetDefaultChannel(m, "logger")) == Some("logger")
  {
  }

  /** An unknown channel, or no default channel, answers with the emergency
      logger; with the fallback disabled the unknown channel is thrown. The
      test replaces `addEmergencyLogger` with a mock that registers its own
      configuration; the real emergency configuration is used here, and the
      answered logger's name is the emergency channel's either way. */
  lemma MissingChannelFallsBack()
    ensures Channel(TestManager(), Some("foo")).result.value.name == EMERGENCY_CHANNEL
    ensures Channel(TestManager(), None).result.value.name == EMERGENCY_CHANNEL
    ensures Channel(UseEmergencyChannel(TestManager(), false), Some("foo")).result == Throw(UndefinedChannel("foo"))
  {
    FallbackNeverThrows(TestManager(), Some("foo"));
    FallbackNeverThrows(TestManager(), None);
  }

  /** The level methods log on the default channel's logger. */
  lemma LogProxiesToDefaultChannel()
    ensures var m := Add(TestManager(), "logger", TestConfig(true));
      Log(m, Warning, "test warning", map[]).state.trace == [LogEntry("logger", Warning, "test warning", map[])]
  {
  }
}

=== FILE: values.dfy ===
/**
 * The values the channel factory and the channel manager exchange:
 * configuration entries (which double as container entries), channel
 * configurations, the loggers the backend builds, and the exceptions the
 * core throws.
 *
 * PHP decides at run time what a configuration entry is (`instanceof`,
 * `is_string`, `is_callable`, `class_exists` plus `method_exists(__invoke)`).
 * Here that decision is made once, when the value is built: each answer is
 * a constructor or a field of `Value`.
 */
module Values {

  datatype Option<+T> = None | Some(value: T) {

    /** The wrapped value, or `default` for None (PHP's `??`). */
    function GetOr(default: T): T {
      if Some? then value else default
    }
  }

  /** What a PHP call either returns or throws. */
  datatype Result<+T> = Ok(value: T) | Throw(e: Exception)

  /** The backend interfaces an object may implement. */
  datatype Role = HandlerRole | ProcessorRole | FormatterRole

  /**
   * A configuration entry, or an entry stored in the container.
   *  - Object: a PHP object; `roles` are the backend interfaces it implements,
   *    `invoke` names the code run when it is called (a closure, or an
   *    object with `__invoke`), None when it is not callable.
   *  - Key: a string that is not callable and names no invokable class.
   *  - InvokableName: a string that names a PHP function or a class with
   *    `__invoke`; `callee` names the code run when it is invoked.
   *  - Struct: an array `{name, params?, formatter?}` whose `name` entry is
   *    `target`; `formatter` is None
   *    when the key is absent or null.
   */
  datatype Value =
    | Object(id: nat, roles: set<Role>, invoke: Option<nat>)
    | Key(name: string)
    | InvokableName(name: string, callee: nat)
    | Struct(target: Value, params: map<string, string>, formatter: Option<Value>)

  /** A PSR-11 container as far as the factory uses it: `has(k)` is
      `k in c`, `get(k)` is `c[k]`. */
  type Container = map<string, Value>

  predicate IsInstance(v: Value, role: Role) {
    v.Object? && role in v.roles
  }

  /** The string form of a value when PHP's `is_string` holds of it. */
  function AsString(v: Value): (s: Option<string>) {
    match v
    case Key(s) => Some(s)
    case InvokableName(s, _) => Some(s)
    case _ => None
  }

  /**
   * A channel configuration.
   *  - handlers, processors: None when the key is absent (the factory then
   *    leaves it alone); a value that is not an array has no counterpart
   *    here and also counts as None;
   *  - default: None when the key is absent or null;
   *  - extra: every other key, handed to the backend uninterpreted.
   */
  datatype ChannelConfig = ChannelConfig(
    handlers: Option<seq<Value>>,
    processors: Option<seq<Value>>,
    default: Option<bool>,
    extra: map<string, string>)

  /** A logger built by the backend: the name and the configuration it was
      built from identify it. */
  datatype Logger = Logger(name: string, config: ChannelConfig)

  /**
   * The exceptions the core throws.
   *  - CouldNotResolve: an InvalidArgumentException from the factory;
   *  - NotAReference: the TypeError `class_exists` raises (strict types) when
   *    a value that is neither a string nor callable reaches it;
   *  - NotAFormatter: the TypeError raised when a resolved formatter does
   *    not satisfy the declared return type FormatterInterface;
   *  - BackendFailure: the backend logger factory refused the configuration;
   *  - NoDefaultChannel, UndefinedChannel: InvalidArgumentExceptions from
   *    the manager.
   */
  datatype Exception =
    | CouldNotResolve(reference: string)
    | NotAReference
    | NotAFormatter
    | BackendFailure(channel: string)
    | NoDefaultChannel
    | UndefinedChannel(channel: string)

  predicate IsInvalidArgument(e: Exception) {
    e.CouldNotResolve? || e.NoDefaultChannel? || e.UndefinedChannel?
  }

  /** The message of an InvalidArgumentException the core throws. */
  function Message(e: Exception): (msg: string)
    requires IsInvalidArgument(e)
  {
    if e.CouldNotResolve? then "Could not resolve \"" + e.reference + "\""
    else if e.UndefinedChannel? then "Channel \"" + e.channel + "\" is not defined"
    else "No default channel has been set"
  }

  /** The message alone tells which exception was thrown, and for which
      reference or channel name. */
  lemma MessageIdentifiesException(a: Exception, b: Exception)
    requires IsInvalidArgument(a) && IsInvalidArgument(b)
    requires Message(a) == Message(b)
    ensures a == b
  {
    var m := Message(a);
    MessageShape(a);
    MessageShape(b);
    if a.CouldNotResolve? {
      assert b.CouldNotResolve?;
      assert a.reference == m[19..|m| - 1] == b.reference;
    } else if a.UndefinedChannel? {
      assert b.UndefinedChannel?;
      assert a.channel == m[9..|m| - 16] == b.channel;
    }
  }

  /** The first two characters tell the kinds apart, and each argument sits
      at a fixed offset from both ends of its message. */
  lemma MessageShape(e: Exception)
    requires IsInvalidArgument(e)
    ensures var m := Message(e);
      && |m| >= 2
      && (e.CouldNotResolve? ==> m[0] == 'C' && m[1] == 'o' && |m| >= 20 && m[19..|m| - 1] == e.reference)
      && (e.UndefinedChannel? ==> m[0] == 'C' && m[1] == 'h' && |m| >= 25 && m[9..|m| - 16] == e.channel)
      && (e.NoDefaultChannel? ==> m[0] == 'N')
  {
  }
}
